=== FILE: README.md ===
# Cart state manager: a Dafny model

This project models the cart service of an Angular storefront
(`CartService`, src/app/services/cart.service.ts) and proves properties of it.

The cart is an ordered list of lines. Each line pairs a product snapshot
(id, price, stock) with a quantity. Four operations change the list:

- `addToCart` checks the request against stock, then either merges it into the
  line for the same product or appends a new line.
- `updateQuantity` removes the line, rejects the request, or sets the quantity.
- `removeFromCart` filters lines out by product id.
- `clearCart` empties the list.

Every successful change goes through `updateCart`. It publishes a copy of the
list on the cart's observable and writes the list to the `'cart'` storage slot.
The constructor loads that slot once. `getTotal` and `getItemCount` are folds
over the list.

Modules, one file each:

- `Wrappers` (wrappers.dfy): `Option` and `Result`.
- `Products` (products.dfy): the `Product` and `CartItem` records of
  src/app/models/product.interface.ts, and each line's subtotal.
- `CartItems` (cart_items.dfy): the list-level operations the service uses.
  These are `find` (first match), `filter`, and the `reduce` folds behind the
  total and the item count, with their lemmas.
- `CartService` (cart_service.dfy): the service state as an immutable `Store`
  and every service method as a function or method over it.
- `CartProperties` (cart_properties.dfy): the invariants and how each mutation
  moves the folds. It also covers the storage round trip, runs of many
  requests, and concrete scenarios where the code does not protect an
  invariant by itself.

State model. The fields of `Store` are:

- `items`: the cart list.
- `emitted`: every value the `BehaviorSubject` has carried. It starts with the
  empty list, and its last entry is what a subscriber sees.
- `storage`: `localStorage`, modelled as a map from key to stored cart list.
- `saves`: the number of writes the service has made to storage.
- `browser`: the fixed result of `isPlatformBrowser`.

A thrown `Error` becomes `Failure(InsufficientStock(n))`. `n` is the number the
message reports. A caller that catches the error keeps the store it had.
`Step` models that for sequences of requests.

## Model

| member | source | states |
|---|---|---|
| CartItems.FindIndex | src/app/services/cart.service.ts:34 | returns the first line with the id, or None exactly when no line has it (`find` semantics, so the first of any duplicates wins) |
| CartItems.RemoveId | src/app/services/cart.service.ts:65 | the result has no line with the id, and holds the same lines as the input minus those with the id (their order: RemoveIdAppend) |
| CartItems.RemoveIdAbsent | src/app/services/cart.service.ts:65 | filtering a list that has no line for the id returns the list unchanged |
| CartItems.RemoveIdAppend | src/app/services/cart.service.ts:65 | filtering distributes over concatenation, so surviving lines keep their relative order |
| CartItems.RemoveIdIdempotent | src/app/services/cart.service.ts:65 | filtering twice by one id equals filtering once |
| CartItems.RemoveIdAt | src/app/services/cart.service.ts:64-67 | with unique ids, removing line i's id leaves exactly the lines before i followed by the lines after i |
| CartItems.RemoveIdInStock | src/app/services/cart.service.ts:65 | every line that survives filtering still has a quantity in [1, its snapshot's stock] |
| CartItems.RemoveIdPositive | src/app/services/cart.service.ts:65 | every line that survives filtering still has a quantity of at least 1 |
| CartItems.RemoveIdUnique | src/app/services/cart.service.ts:65 | filtering a list with unique ids leaves a list with unique ids |
| CartItems.SumAppend | src/app/services/cart.service.ts:74-80 | the reduce of a concatenation is the sum of the reduces of its parts |
| CartItems.SumUpdate | src/app/services/cart.service.ts:74-80 | replacing one line changes the reduce by exactly the new line's contribution minus the old one's |
| CartItems.SumRemoveAt | src/app/services/cart.service.ts:74-80 | dropping one line lowers the reduce by exactly that line's contribution |
| CartItems.FoldBounds | src/app/services/cart.service.ts:74-80 | with non-negative quantities, total and item count are non-negative; with every quantity at least 1, the item count is at least the number of lines |
| CartService.SaveCartToStorage | src/app/services/cart.service.ts:97-101 | in a browser, the 'cart' slot holds the current list, other keys are untouched and one write is counted; outside a browser the store is unchanged |
| CartService.UpdateCart | src/app/services/cart.service.ts:92-95 | after installing a list, exactly one new snapshot equal to it has been published, storage mirrors it, and the earlier snapshots are kept |
| CartService.LoadCartFromStorage | src/app/services/cart.service.ts:103-111 | in a browser with a stored slot, the list becomes the stored one verbatim and is published; otherwise nothing changes; no write is made |
| CartService.Init | src/app/services/cart.service.ts:11-18 | a new service starts from the empty subject value, takes the stored list unvalidated when one exists, and is mirrored whatever storage holds |
| CartService.AddToCart | src/app/services/cart.service.ts:28-47 | fails with the stock when stock < quantity; for an existing id, fails with stock - held exactly when held + quantity > stock, else raises only that line's quantity and keeps its snapshot, the length and all other lines; for a new id appends exactly (product, quantity); success commits once |
| CartService.UpdateQuantity | src/app/services/cart.service.ts:49-62 | for an absent id, returns the identical store (no publish, no write); quantity <= 0 equals removeFromCart; quantity above the line's own snapshot stock fails with that stock; otherwise only that line's quantity becomes the requested one and the change is committed |
| CartService.RemoveFromCart | src/app/services/cart.service.ts:64-67 | no line with the id remains, the same other lines remain (their order: RemoveIdAppend, RemoveFromCartLine), and the change is committed even when nothing was removed |
| CartService.ClearCart | src/app/services/cart.service.ts:69-72 | the list is empty and the change is committed |
| CartService.GetTotal | src/app/services/cart.service.ts:74-76 | the loop's result is the sum of price times quantity over the lines, and is non-negative when every quantity is non-negative |
| CartService.GetItemCount | src/app/services/cart.service.ts:78-80 | the loop's result is the sum of quantities, and is at least the number of lines when every quantity is at least 1 |
| CartProperties.AddToCartPreservesInv | src/app/services/cart.service.ts:28-47 | a successful add keeps bounded quantities, unique ids and mirroring, given quantity >= 1 and a passed stock no larger than the held snapshot's (only the stock bound needs the latter: AddToCartKeepsUnique) |
| CartProperties.UpdateQuantityPreservesInv | src/app/services/cart.service.ts:49-62 | a successful updateQuantity keeps the invariant for every requested quantity |
| CartProperties.RemoveFromCartPreservesInv | src/app/services/cart.service.ts:64-67 | removeFromCart keeps the invariant |
| CartProperties.RemoveFromCartAbsent | src/app/services/cart.service.ts:64-67 | removing an absent id keeps the list but still publishes one snapshot and, in a browser, still writes storage |
| CartProperties.RemoveFromCartIdempotent | src/app/services/cart.service.ts:64-67 | removing an id twice leaves the same list as removing it once |
| CartProperties.RemoveFromCartLine | src/app/services/cart.service.ts:64-80 | with unique ids, removing line i drops exactly that line in place and lowers total and item count by its share |
| CartProperties.AddToCartTotals | src/app/services/cart.service.ts:28-47 | a successful add raises the item count by the quantity, and the total by the quantity times the price of the line it lands on (the held snapshot's price for an existing id) |
| CartProperties.UpdateQuantityTotals | src/app/services/cart.service.ts:49-62 | setting a quantity moves the item count by new minus old and the total by price times that difference |
| CartProperties.ClearCartEmpties | src/app/services/cart.service.ts:69-80 | after clearCart, total and item count are 0, the published snapshot is empty, the slot holds the empty list, and the invariant holds |
| CartProperties.ReloadRestores | src/app/services/cart.service.ts:97-111 | a new service built over a mirrored store's storage restores and publishes exactly its list |
| CartProperties.InitEstablishesInv | src/app/services/cart.service.ts:15-18 | a service built outside a browser, or over an absent or valid stored list, starts in the invariant |
| CartProperties.Step | src/app/components/catalog/catalog.component.ts:79-84 | a request either leaves the store unchanged (a caught error) or commits exactly once; an add or quantity change rejected for stock leaves it exactly as it was |
| CartProperties.StepPreservesInv | src/app/services/cart.service.ts:28-72 | every admissible request keeps the invariant |
| CartProperties.RunPreservesInv | src/app/services/cart.service.ts:28-72 | any sequence of admissible requests keeps the invariant after every step |
| CartProperties.AddToCartKeepsUnique | src/app/services/cart.service.ts:34-44 | every successful add keeps ids unique, whatever the quantity and the passed stock |
| CartProperties.UpdateQuantityKeepsUnique | src/app/services/cart.service.ts:49-62 | every successful updateQuantity keeps ids unique |
| CartProperties.StepKeepsUnique | src/app/services/cart.service.ts:28-72 | every request keeps ids unique |
| CartProperties.RunKeepsUnique | src/app/services/cart.service.ts:28-72 | any sequence of requests, with no condition on them, keeps ids unique |
| CartProperties.StepKeepsMirrored | src/app/services/cart.service.ts:92-101 | every request leaves the published snapshot and the cart slot equal to the list |
| CartProperties.RunKeepsMirrored | src/app/services/cart.service.ts:92-101 | any sequence of requests, with no condition on them, keeps the snapshot and the slot in step with the list |
| CartProperties.StepKeepsPositive | src/app/services/cart.service.ts:28-72 | a request other than an add of fewer than 1 unit keeps every quantity at least 1, whatever the passed stock |
| CartProperties.RunKeepsPositive | src/app/services/cart.service.ts:28-72 | a sequence whose adds each ask for at least 1 unit keeps every quantity at least 1, whatever the passed stock |
| CartProperties.AddZeroQuantityAppendsEmptyLine | src/app/services/cart.service.ts:28-44 | with no lower bound on quantity, adding 0 units appends a line that breaks quantity >= 1 |
| CartProperties.AddWithRaisedStockBreaksBound | src/app/services/cart.service.ts:36-41 | from a store that satisfies the invariant, checking an existing line against a larger passed stock leaves a store that breaks it (quantity above the held snapshot's stock) |
| CartProperties.AddWithRaisedStockMayKeepInv | src/app/services/cart.service.ts:36-41 | an add whose passed stock is above the held snapshot's can still keep the invariant, so StockNotRaised is sufficient and not necessary |
| CartProperties.LoadKeepsInvalidLine | src/app/services/cart.service.ts:103-111 | a stored line with quantity -1 is restored as it is |
| CartProperties.AddTwiceMerges | src/app/services/cart.service.ts:34-46 | adding 2 units of a product with stock 5 and price 10.00 twice gives one line of 4 units, a total of 40.00, and that line in storage |
| CartProperties.UpdateQuantityAboveStockFails | src/app/services/cart.service.ts:54-56 | asking for 6 units against a snapshot stock of 5 fails and reports 5 |

## Invariants the code does not enforce by itself

This README's invariants are: every quantity lies in [1, the stock of the
line's own snapshot], and no two lines share a product id. Each part is
guaranteed under a different condition, and the model follows the code:

- Unique ids and mirroring are kept by every request, whatever its arguments
  (`RunKeepsUnique`, `RunKeepsMirrored`). Only an unvalidated load from
  storage can bring in a duplicate id.
- `addToCart` never refreshes the product snapshot of a line that is already
  in the cart. It only raises the quantity, and it validates against the stock
  of the product passed in. So "quantity ≤ stock of the line's own snapshot"
  is guaranteed when the passed stock is not larger than the held one
  (`StockNotRaised`), and can be broken otherwise
  (`AddWithRaisedStockBreaksBound`). The catalog loads fresh product records
  each time it opens (catalog.component.ts:60-72), so a restock between two
  visits makes this condition fail. A larger passed stock does not always
  break the bound (`AddWithRaisedStockMayKeepInv`).
- `addToCart` has no lower bound on the quantity. "quantity ≥ 1" is
  guaranteed when every add asks for at least one unit, as callers do by
  passing 1 (`RunKeepsPositive`). `AddZeroQuantityAppendsEmptyLine` shows
  what happens otherwise.
- `loadCartFromStorage` installs the stored list as it is. It drops no
  malformed lines and checks no invariant (`LoadKeepsInvalidLine`). So the
  invariant holds after construction when the stored list satisfies it
  (`InitEstablishesInv`).
- `updateQuantity` on an absent id is a silent no-op. It does not publish and
  does not write storage. `removeFromCart` on an absent id still publishes
  and writes.
- Lookups use the first matching line and removal drops every matching line.
  This matters only for unvalidated lists loaded from storage, which can hold
  duplicate ids.

## Left out

- `processPurchase` (cart.service.ts:83-90): asynchronous stock-update calls over HTTP. It ends by calling `clearCart`, which is modelled.
- `getCart` and `getCartItems`: plain accessors. They correspond to the last entry of `emitted` (`Published`) and to `items`.
- Reference aliasing: `getCartItems` returns the internal array, and the cart view binds `item.quantity` in place (cart.component.ts:36). `addToCart` and `updateQuantity` also mutate line objects that earlier published snapshots still share. The model uses value semantics throughout.
- Mirrored, ReloadRestores, RunPreservesInv and RunKeepsMirrored: they assume this service instance is the only writer of the `'cart'` slot. Real `localStorage` is shared by every tab of the origin. Each tab's service reads the slot once at construction (cart.service.ts:103-111) and overwrites it on every mutation (lines 97-101). With two tabs, the slot holds the last writer's list, and a reload restores that list.
- Step and Mirrored: they do not describe a rejected `updateQuantity` issued from the cart view. Because of the in-place binding, the over-stock quantity is already in the live list when the call fails, and it is neither published nor saved. In the model a failed request changes nothing.
- The `alert` in `updateQuantity` and the error message text. Only the number each message reports is kept.
- JSON serialisation: the slot holds the list directly. A slot that does not parse, or parses to something other than a list, is not modelled. Neither is the falsy empty-string case of `if (savedCart)`, which `JSON.stringify` of a list never produces. A storage write failure (for example a full quota) is not modelled either.
- Step: a write failure in `localStorage.setItem` (cart.service.ts:99) is not covered. When it throws, the list has already changed and the snapshot has already been published (lines 41, 43, 58, 65 or 70, then 93). The catalog's catch (catalog.component.ts:82-84) then reports a failed add that actually happened. In the model, every committed request succeeds.
- `Product` fields that the cart never reads (name, description, image, isActive, dates) are not carried. The optional `_id` is modelled as always present.
- Numbers: prices are integer cents and quantities and stock are integers. Floating-point prices, and fractional or NaN quantities arriving from the number input, are not modelled.
- The default `quantity = 1` of `addToCart` is not a default parameter here. Callers pass it explicitly.
- Product and order HTTP services, components, templates, routing and checkout submission: user interface and network code outside the cart state manager.

=== FILE: cart_items.dfy ===
/** Operations on the ordered list of cart lines that the cart service
    keeps: lookup by product id, filtering out an id, and the two folds
    behind the total and the item count (src/app/services/cart.service.ts). */
module CartItems {
  import opened Wrappers
  import opened Products

  /** True when some line holds a product with identifier `id`. */
  predicate HasId(items: seq<CartItem>, id: string) {
    exists k :: 0 <= k < |items| && items[k].product.id == id
  }

  /** No two lines share a product identifier. */
  predicate UniqueIds(items: seq<CartItem>) {
    forall i, j :: 0 <= i < j < |items| ==> items[i].product.id != items[j].product.id
  }

  /** Every line wants at least one unit and no more than the stock recorded
      in the line's own product snapshot. */
  predicate QuantitiesInStock(items: seq<CartItem>) {
    forall k :: 0 <= k < |items| ==> 1 <= items[k].quantity <= items[k].product.stock
  }

  /** Every line wants at least one unit. */
  predicate QuantitiesPositive(items: seq<CartItem>) {
    forall k :: 0 <= k < |items| ==> items[k].quantity >= 1
  }

  /** The cart invariants: bounded quantities and unique identifiers. */
  predicate ValidItems(items: seq<CartItem>) {
    QuantitiesInStock(items) && UniqueIds(items)
  }

  /** The position of the FIRST line whose product has identifier `id`, as
      `Array.prototype.find` selects it, or None when there is no such line. */
  function FindIndex(items: seq<CartItem>, id: string): (r: Option<nat>)
    ensures r.Some? ==> r.value < |items| && items[r.value].product.id == id
    ensures r.Some? ==> forall j :: 0 <= j < r.value ==> items[j].product.id != id
    ensures r.None? <==> !HasId(items, id)
  {
    if |items| == 0 then None
    else if items[0].product.id == id then Some(0)
    else match FindIndex(items[1..], id)
      case None => None
      case Some(k) => Some(k + 1)
  }

  /** The lines whose product identifier differs from `id`, in their original
      order, as `Array.prototype.filter` keeps them. */
  function RemoveId(items: seq<CartItem>, id: string): (r: seq<CartItem>)
    ensures !HasId(r, id)
    ensures forall x :: x in r <==> x in items && x.product.id != id
    ensures |r| <= |items|
  {
    if |items| == 0 then []
    else if items[0].product.id == id then RemoveId(items[1..], id)
    else [items[0]] + RemoveId(items[1..], id)
  }

  /** A left fold of `f` over the lines, the shape of `Array.prototype.reduce`
      with initial value 0. */
  function Sum(items: seq<CartItem>, f: CartItem -> int): int {
    if |items| == 0 then 0
    else Sum(items[..|items| - 1], f) + f(items[|items| - 1])
  }

  /** The cart total: the sum of price times quantity over the lines. */
  function Total(items: seq<CartItem>): int {
    Sum(items, Subtotal)
  }

  /** The item count: the sum of the quantities of the lines. */
  function ItemCount(items: seq<CartItem>): int {
    Sum(items, Quantity)
  }

  /** Filtering a list with no line for `id` returns it unchanged. */
  lemma {:induction false} RemoveIdAbsent(items: seq<CartItem>, id: string)
    requires !HasId(items, id)
    ensures RemoveId(items, id) == items
  {
    if |items| > 0 {
      assert !HasId(items[1..], id) by {
        forall k | 0 <= k < |items[1..]|
          ensures items[1..][k].product.id != id
        {
          assert items[1..][k] == items[k + 1];
        }
      }
      RemoveIdAbsent(items[1..], id);
      assert items == [items[0]] + items[1..];
    }
  }

  /** Filtering distributes over concatenation, so it keeps relative order. */
  lemma {:induction false} RemoveIdAppend(a: seq<CartItem>, b: seq<CartItem>, id: string)
    ensures RemoveId(a + b, id) == RemoveId(a, id) + RemoveId(b, id)
  {
    if |a| > 0 {
      assert (a + b)[1..] == a[1..] + b;
      RemoveIdAppend(a[1..], b, id);
    } else {
      assert a + b == b;
    }
  }

  /** Filtering twice by the same identifier is filtering once. */
  lemma RemoveIdIdempotent(items: seq<CartItem>, id: string)
    ensures RemoveId(RemoveId(items, id), id) == RemoveId(items, id)
  {
    RemoveIdAbsent(RemoveId(items, id), id);
  }

  /** In a list with unique identifiers, no line before or after line `i`
      carries line `i`'s identifier. */
  lemma UniqueOutsideLine(items: seq<CartItem>, i: nat)
    requires UniqueIds(items)
    requires i < |items|
    ensures !HasId(items[..i], items[i].product.id)
    ensures !HasId(items[i + 1..], items[i].product.id)
  {
    var id := items[i].product.id;
    var pre, post := items[..i], items[i + 1..];
    forall k | 0 <= k < |pre| ensures pre[k].product.id != id {
      assert pre[k] == items[k];
    }
    forall k | 0 <= k < |post| ensures post[k].product.id != id {
      assert post[k] == items[i + 1 + k];
    }
  }

  /** In a list with unique identifiers, filtering out the identifier of line
      `i` removes exactly that line and keeps the others in order. */
  lemma {:induction false} RemoveIdAt(items: seq<CartItem>, i: nat)
    requires UniqueIds(items)
    requires i < |items|
    ensures RemoveId(items, items[i].product.id) == items[..i] + items[i + 1..]
  {
    var id := items[i].product.id;
    var rest := items[1..];
    if i == 0 {
      UniqueOutsideLine(items, i);
      RemoveIdAbsent(rest, id);
    } else {
      UniqueTail(items);
      assert rest[i - 1] == items[i];
      RemoveIdAt(rest, i - 1);
      assert items[0].product.id != id;
      assert RemoveId(items, id) == [items[0]] + RemoveId(rest, id);
      assert items[..i] == [items[0]] + rest[..i - 1];
      assert items[i + 1..] == rest[i..];
    }
  }

  /** Dropping the first line keeps identifiers unique. */
  lemma UniqueTail(items: seq<CartItem>)
    requires UniqueIds(items)
    requires |items| > 0
    ensures UniqueIds(items[1..])
  {
    var rest := items[1..];
    forall a, b | 0 <= a < b < |rest| ensures rest[a].product.id != rest[b].product.id {
      assert rest[a] == items[a + 1] && rest[b] == items[b + 1];
    }
  }

  /** Filtering keeps every surviving line's quantity within its stock. */
  lemma RemoveIdInStock(items: seq<CartItem>, id: string)
    requires QuantitiesInStock(items)
    ensures QuantitiesInStock(RemoveId(items, id))
  {
    var r := RemoveId(items, id);
    forall k | 0 <= k < |r| ensures 1 <= r[k].quantity <= r[k].product.stock {
      assert r[k] in items;
    }
  }

  /** Filtering keeps every surviving line's quantity at least one. */
  lemma RemoveIdPositive(items: seq<CartItem>, id: string)
    requires QuantitiesPositive(items)
    ensures QuantitiesPositive(RemoveId(items, id))
  {
    var r := RemoveId(items, id);
    forall k | 0 <= k < |r| ensures r[k].quantity >= 1 {
      assert r[k] in items;
    }
  }

  /** Filtering keeps identifiers unique. */
  lemma {:induction false} RemoveIdUnique(items: seq<CartItem>, id: string)
    requires UniqueIds(items)
    ensures UniqueIds(RemoveId(items, id))
  {
    if |items| > 0 {
      var rest := items[1..];
      UniqueTail(items);
      RemoveIdUnique(rest, id);
      if items[0].product.id != id {
        var tail := RemoveId(rest, id);
        var r := [items[0]] + tail;
        forall k | 0 <= k < |tail| ensures tail[k].product.id != items[0].product.id {
          assert tail[k] in rest;
          var m :| 0 <= m < |rest| && rest[m] == tail[k];
          assert rest[m] == items[m + 1];
        }
        forall a, b | 0 <= a < b < |r| ensures r[a].product.id != r[b].product.id {
          assert r[b] == tail[b - 1];
          if a > 0 { assert r[a] == tail[a - 1]; }
        }
      }
    }
  }

  /** Filtering preserves both cart invariants. */
  lemma RemoveIdValid(items: seq<CartItem>, id: string)
    requires ValidItems(items)
    ensures ValidItems(RemoveId(items, id))
  {
    RemoveIdInStock(items, id);
    RemoveIdUnique(items, id);
  }

  /** The fold of a concatenation is the sum of the folds. */
  lemma {:induction false} SumAppend(a: seq<CartItem>, b: seq<CartItem>, f: CartItem -> int)
    ensures Sum(a + b, f) == Sum(a, f) + Sum(b, f)
  {
    if |b| == 0 {
      assert a + b == a;
    } else {
      var b' := b[..|b| - 1];
      assert (a + b)[..|a + b| - 1] == a + b';
      SumAppend(a, b', f);
    }
  }

  /** The fold of a single line is that line's contribution. */
  lemma SumSingle(x: CartItem, f: CartItem -> int)
    ensures Sum([x], f) == f(x)
  {
    assert [x][..0] == [];
  }

  /** Replacing line `i` changes the fold by exactly the difference between
      the new and the old line's contribution. */
  lemma SumUpdate(items: seq<CartItem>, i: nat, x: CartItem, f: CartItem -> int)
    requires i < |items|
    ensures Sum(items[i := x], f) == Sum(items, f) - f(items[i]) + f(x)
  {
    var pre, post := items[..i], items[i + 1..];
    assert items == pre + [items[i]] + post;
    assert items[i := x] == pre + [x] + post;
    SumAppend(pre + [items[i]], post, f);
    SumAppend(pre, [items[i]], f);
    SumAppend(pre + [x], post, f);
    SumAppend(pre, [x], f);
    SumSingle(items[i], f);
    SumSingle(x, f);
  }

  /** Dropping line `i` lowers the fold by exactly that line's contribution. */
  lemma SumRemoveAt(items: seq<CartItem>, i: nat, f: CartItem -> int)
    requires i < |items|
    ensures Sum(items[..i] + items[i + 1..], f) == Sum(items, f) - f(items[i])
  {
    var pre, post := items[..i], items[i + 1..];
    SplitAt(items, i);
    SumAppend(pre + [items[i]], post, f);
    SumAppend(pre, [items[i]], f);
    SumSingle(items[i], f);
    SumAppend(pre, post, f);
  }

  /** A list is its prefix, the line at `i`, and its suffix. */
  lemma SplitAt(items: seq<CartItem>, i: nat)
    requires i < |items|
    ensures items == items[..i] + [items[i]] + items[i + 1..]
  {
  }

  /** When every line has a non-negative quantity the total and the item
      count are non-negative; when every line wants at least one unit the
      item count is at least the number of lines. */
  lemma {:induction false} FoldBounds(items: seq<CartItem>)
    requires forall k :: 0 <= k < |items| ==> items[k].quantity >= 0
    ensures Total(items) >= 0
    ensures ItemCount(items) >= 0
    ensures (forall k :: 0 <= k < |items| ==> items[k].quantity >= 1) ==> ItemCount(items) >= |items|
  {
    if |items| > 0 {
      var init := items[..|items| - 1];
      assert forall k :: 0 <= k < |init| ==> init[k] == items[k];
      FoldBounds(init);
    }
  }
}

=== FILE: cart_properties.dfy ===
/** Properties of the cart service model: the invariants every mutation keeps,
    how each mutation moves the total and the item count, the persistence
    round trip, runs of many operations, and the cases where the service's
    code does not protect an invariant by itself. */
module CartProperties {
  import opened Wrappers
  import opened Products
  import opened CartItems
  import opened CartService

  /** The invariant of a well-formed store: quantities within [1, stock],
      unique product ids, and the published snapshot and the storage slot
      mirroring the list. */
  predicate Inv(s: Store) {
    ValidItems(s.items) && Mirrored(s)
  }

  /** The product passed to `addToCart` reports no more stock than the
      snapshot already held for its id. This holds when the catalog passes
      the same product record it passed before. */
  predicate StockNotRaised(items: seq<CartItem>, product: Product) {
    forall k :: 0 <= k < |items| && items[k].product.id == product.id ==>
      product.stock <= items[k].product.stock
  }

  /** Replacing a line by one for the same product with a quantity in
      [1, stock] keeps the list valid. */
  lemma SetLineValid(items: seq<CartItem>, i: nat, quantity: int)
    requires ValidItems(items)
    requires i < |items|
    requires 1 <= quantity <= items[i].product.stock
    ensures ValidItems(items[i := items[i].(quantity := quantity)])
  {
    var t := items[i := items[i].(quantity := quantity)];
    assert forall k :: 0 <= k < |t| ==> t[k].product == items[k].product;
  }

  /** Appending a line for a new id with a quantity in [1, stock] keeps the
      list valid. */
  lemma AppendLineValid(items: seq<CartItem>, line: CartItem)
    requires ValidItems(items)
    requires !HasId(items, line.product.id)
    requires 1 <= line.quantity <= line.product.stock
    ensures ValidItems(items + [line])
  {
    var t := items + [line];
    forall i, j | 0 <= i < j < |t| ensures t[i].product.id != t[j].product.id {
      if j == |items| {
        assert t[i] == items[i];
      } else {
        assert t[i] == items[i] && t[j] == items[j];
      }
    }
    forall k | 0 <= k < |t| ensures 1 <= t[k].quantity <= t[k].product.stock {
      if k < |items| { assert t[k] == items[k]; }
    }
  }

  /** A successful `addToCart` with a quantity of at least one, whose product
      reports no more stock than the snapshot held for its id, keeps the
      invariant. Both conditions are the caller's: the code checks neither.
      Only the stock bound needs the second one: unique ids and mirroring
      hold after any add (`AddToCartKeepsUnique`, `StepKeepsMirrored`). */
  lemma AddToCartPreservesInv(s: Store, product: Product, quantity: int)
    requires Inv(s)
    requires quantity >= 1
    requires StockNotRaised(s.items, product)
    ensures AddToCart(s, product, quantity).Success? ==> Inv(AddToCart(s, product, quantity).value)
  {
    var r := AddToCart(s, product, quantity);
    if r.Success? {
      match FindIndex(s.items, product.id)
      case Some(i) =>
        var line := s.items[i];
        assert product.stock <= line.product.stock;
        SetLineValid(s.items, i, line.quantity + quantity);
        assert r.value.items == s.items[i := line.(quantity := line.quantity + quantity)];
      case None =>
        AppendLineValid(s.items, CartItem(product, quantity));
    }
  }

  /** A successful `updateQuantity` keeps the invariant, whatever the
      requested quantity. */
  lemma UpdateQuantityPreservesInv(s: Store, productId: string, quantity: int)
    requires Inv(s)
    ensures UpdateQuantity(s, productId, quantity).Success? ==>
      Inv(UpdateQuantity(s, productId, quantity).value)
  {
    match FindIndex(s.items, productId)
    case None =>
    case Some(i) =>
      if quantity <= 0 {
        RemoveIdValid(s.items, productId);
      } else if quantity <= s.items[i].product.stock {
        SetLineValid(s.items, i, quantity);
      }
  }

  /** `removeFromCart` keeps the invariant. */
  lemma RemoveFromCartPreservesInv(s: Store, productId: string)
    requires Inv(s)
    ensures Inv(RemoveFromCart(s, productId))
  {
    RemoveIdValid(s.items, productId);
  }

  /** Removing an id that is not in the cart leaves the list as it was but
      still publishes one snapshot and, in a browser, still writes the slot. */
  lemma RemoveFromCartAbsent(s: Store, productId: string)
    requires !HasId(s.items, productId)
    ensures RemoveFromCart(s, productId).items == s.items
    ensures |RemoveFromCart(s, productId).emitted| == |s.emitted| + 1
    ensures s.browser ==> RemoveFromCart(s, productId).saves == s.saves + 1
  {
    RemoveIdAbsent(s.items, productId);
  }

  /** Removing the same id twice leaves the same list as removing it once. */
  lemma RemoveFromCartIdempotent(s: Store, productId: string)
    ensures RemoveFromCart(RemoveFromCart(s, productId), productId).items
         == RemoveFromCart(s, productId).items
  {
    RemoveIdIdempotent(s.items, productId);
  }

  /** In a cart with unique ids, removing the id of line `i` drops exactly
      that line, keeps the others in order, and lowers the total and the item
      count by exactly that line's share. */
  lemma RemoveFromCartLine(s: Store, i: nat)
    requires UniqueIds(s.items)
    requires i < |s.items|
    ensures RemoveFromCart(s, s.items[i].product.id).items == s.items[..i] + s.items[i + 1..]
    ensures Total(RemoveFromCart(s, s.items[i].product.id).items) == Total(s.items) - Subtotal(s.items[i])
    ensures ItemCount(RemoveFromCart(s, s.items[i].product.id).items) == ItemCount(s.items) - s.items[i].quantity
  {
    RemoveIdAt(s.items, i);
    SumRemoveAt(s.items, i, Subtotal);
    SumRemoveAt(s.items, i, Quantity);
  }

  /** Raising a line's quantity by `delta` raises its subtotal by `delta`
      times its unit price. */
  lemma SubtotalShift(line: CartItem, delta: int)
    ensures Subtotal(line.(quantity := line.quantity + delta)) == Subtotal(line) + line.product.price * delta
  {
    var p := line.product.price;
    assert p * (line.quantity + delta) == p * line.quantity + p * delta;
  }

  /** Raising the quantity of line `i` by `delta` raises the item count by
      `delta` and the total by `delta` times the line's price. */
  lemma ShiftLineTotals(items: seq<CartItem>, i: nat, delta: int)
    requires i < |items|
    ensures var t := items[i := items[i].(quantity := items[i].quantity + delta)];
      && ItemCount(t) == ItemCount(items) + delta
      && Total(t) == Total(items) + items[i].product.price * delta
  {
    var line' := items[i].(quantity := items[i].quantity + delta);
    SumUpdate(items, i, line', Subtotal);
    SumUpdate(items, i, line', Quantity);
    SubtotalShift(items[i], delta);
  }

  /** Appending a line adds its quantity to the item count and its subtotal
      to the total. */
  lemma AppendLineTotals(items: seq<CartItem>, line: CartItem)
    ensures ItemCount(items + [line]) == ItemCount(items) + line.quantity
    ensures Total(items + [line]) == Total(items) + line.product.price * line.quantity
  {
    SumAppend(items, [line], Subtotal);
    SumAppend(items, [line], Quantity);
    SumSingle(line, Subtotal);
    SumSingle(line, Quantity);
  }

  /** The unit price of the line an add for `product` lands on: the held
      snapshot's price for an id already in the cart, else the passed one. */
  function LandingPrice(items: seq<CartItem>, product: Product): nat {
    match FindIndex(items, product.id)
    case Some(i) => items[i].product.price
    case None => product.price
  }

  /** A successful `addToCart` raises the item count by exactly the quantity
      added, and the total by that quantity times the unit price of the line
      it lands on: the passed product's price for a new line, the stored
      snapshot's price for an existing one. */
  lemma AddToCartTotals(s: Store, product: Product, quantity: int)
    ensures AddToCart(s, product, quantity).Success? ==>
      var t := AddToCart(s, product, quantity).value;
      && ItemCount(t.items) == ItemCount(s.items) + quantity
      && Total(t.items) == Total(s.items) + LandingPrice(s.items, product) * quantity
  {
    var r := AddToCart(s, product, quantity);
    if r.Success? {
      match FindIndex(s.items, product.id)
      case Some(i) =>
        var items' := s.items[i := s.items[i].(quantity := s.items[i].quantity + quantity)];
        assert r.value.items == items';
        ShiftLineTotals(s.items, i, quantity);
      case None =>
        assert r.value.items == s.items + [CartItem(product, quantity)];
        AppendLineTotals(s.items, CartItem(product, quantity));
    }
  }

  /** When `updateQuantity` sets a line's quantity, the item count moves by
      exactly the difference between the new and the old quantity, and the
      total by that difference times the line's price. */
  lemma UpdateQuantityTotals(s: Store, productId: string, quantity: int)
    requires HasId(s.items, productId)
    requires quantity > 0
    ensures UpdateQuantity(s, productId, quantity).Success? ==>
      var t := UpdateQuantity(s, productId, quantity).value;
      var line := s.items[FindIndex(s.items, productId).value];
      && ItemCount(t.items) == ItemCount(s.items) + (quantity - line.quantity)
      && Total(t.items) == Total(s.items) + line.product.price * (quantity - line.quantity)
  {
    var i := FindIndex(s.items, productId).value;
    var line := s.items[i];
    var r := UpdateQuantity(s, productId, quantity);
    if r.Success? {
      var delta := quantity - line.quantity;
      var items' := s.items[i := line.(quantity := line.quantity + delta)];
      assert r.value.items == items' by {
        assert line.(quantity := line.quantity + delta) == line.(quantity := quantity);
      }
      ShiftLineTotals(s.items, i, delta);
    }
  }

  /** After `clearCart` the cart is empty, the total and the item count are
      zero, the published snapshot is empty, and in a browser the slot holds
      the empty list. */
  lemma ClearCartEmpties(s: Store)
    ensures Total(ClearCart(s).items) == 0
    ensures ItemCount(ClearCart(s).items) == 0
    ensures Published(ClearCart(s)) == []
    ensures s.browser ==> ClearCart(s).storage[CartKey] == []
    ensures Inv(ClearCart(s))
  {
  }

  /** Persistence round trip: reloading from the storage of a mirrored store
      in a browser restores its list exactly and publishes it. */
  lemma ReloadRestores(s: Store)
    requires Mirrored(s)
    requires s.browser
    ensures Init(true, s.storage).items == s.items
    ensures Published(Init(true, s.storage)) == s.items
  {
  }

  /** A store built outside a browser, or over storage whose cart slot is
      absent or holds a valid list, satisfies the invariant. */
  lemma InitEstablishesInv(browser: bool, storage: map<string, seq<CartItem>>)
    requires browser && CartKey in storage ==> ValidItems(storage[CartKey])
    ensures Inv(Init(browser, storage))
  {
  }

  /** One request made through the service. */
  datatype Op =
    | Add(product: Product, quantity: int)
    | SetQuantity(productId: string, quantity: int)
    | Remove(productId: string)
    | Clear

  /** The store after one request. A request rejected for insufficient stock
      leaves the store as it was: the service throws that error before it
      mutates anything. */
  function Step(s: Store, op: Op): (t: Store)
    ensures t == s || Committed(s, t)
    ensures op.Add? && AddToCart(s, op.product, op.quantity).Failure? ==> t == s
    ensures op.SetQuantity? && UpdateQuantity(s, op.productId, op.quantity).Failure? ==> t == s
  {
    match op
    case Add(p, q) =>
      (match AddToCart(s, p, q) case Success(t) => t case Failure(_) => s)
    case SetQuantity(id, q) =>
      (match UpdateQuantity(s, id, q) case Success(t) => t case Failure(_) => s)
    case Remove(id) => RemoveFromCart(s, id)
    case Clear => ClearCart(s)
  }

  /** The store after a sequence of requests, applied in order. */
  function Run(s: Store, ops: seq<Op>): Store
    decreases |ops|
  {
    if |ops| == 0 then s else Run(Step(s, ops[0]), ops[1..])
  }

  /** A request the caller may make in store `s`: an add asks for at least
      one unit of a product whose stock is not above the snapshot held for
      its id. The other requests are always admissible. */
  predicate AdmissibleOp(s: Store, op: Op) {
    op.Add? ==> op.quantity >= 1 && StockNotRaised(s.items, op.product)
  }

  /** Every request in the sequence is admissible in the store it meets. */
  predicate Admissible(s: Store, ops: seq<Op>)
    decreases |ops|
  {
    |ops| == 0 || (AdmissibleOp(s, ops[0]) && Admissible(Step(s, ops[0]), ops[1..]))
  }

  /** One admissible request keeps the invariant. */
  lemma StepPreservesInv(s: Store, op: Op)
    requires Inv(s)
    requires AdmissibleOp(s, op)
    ensures Inv(Step(s, op))
  {
    match op
    case Add(p, q) => AddToCartPreservesInv(s, p, q);
    case SetQuantity(id, q) => UpdateQuantityPreservesInv(s, id, q);
    case Remove(id) => RemoveFromCartPreservesInv(s, id);
    case Clear =>
  }

  /** Any sequence of admissible requests keeps the invariant after every
      step, so, with this service as the only writer of the cart slot, the
      published snapshot and the storage slot never fall out of step with the
      cart. */
  lemma {:induction false} RunPreservesInv(s: Store, ops: seq<Op>)
    requires Inv(s)
    requires Admissible(s, ops)
    ensures Inv(Run(s, ops))
    decreases |ops|
  {
    if |ops| > 0 {
      StepPreservesInv(s, ops[0]);
      RunPreservesInv(Step(s, ops[0]), ops[1..]);
    }
  }

  /** Changing the quantity of line `i` keeps identifiers unique. */
  lemma SetLineUnique(items: seq<CartItem>, i: nat, quantity: int)
    requires UniqueIds(items)
    requires i < |items|
    ensures UniqueIds(items[i := items[i].(quantity := quantity)])
  {
    var t := items[i := items[i].(quantity := quantity)];
    assert forall k :: 0 <= k < |t| ==> t[k].product == items[k].product;
  }

  /** Appending a line for an id not yet in the list keeps identifiers
      unique. */
  lemma AppendLineUnique(items: seq<CartItem>, line: CartItem)
    requires UniqueIds(items)
    requires !HasId(items, line.product.id)
    ensures UniqueIds(items + [line])
  {
    var t := items + [line];
    forall i, j | 0 <= i < j < |t| ensures t[i].product.id != t[j].product.id {
      assert t[i] == items[i];
      if j < |items| { assert t[j] == items[j]; }
    }
  }

  /** Every successful `addToCart` keeps identifiers unique, whatever the
      quantity and whatever stock the passed product reports: an existing id
      only has its quantity raised and a new line gets a fresh id. */
  lemma AddToCartKeepsUnique(s: Store, product: Product, quantity: int)
    requires UniqueIds(s.items)
    ensures AddToCart(s, product, quantity).Success? ==>
      UniqueIds(AddToCart(s, product, quantity).value.items)
  {
    var r := AddToCart(s, product, quantity);
    if r.Success? {
      match FindIndex(s.items, product.id)
      case Some(i) =>
        var line := s.items[i];
        SetLineUnique(s.items, i, line.quantity + quantity);
        assert r.value.items == s.items[i := line.(quantity := line.quantity + quantity)];
      case None =>
        AppendLineUnique(s.items, CartItem(product, quantity));
    }
  }

  /** Every successful `updateQuantity` keeps identifiers unique. */
  lemma UpdateQuantityKeepsUnique(s: Store, productId: string, quantity: int)
    requires UniqueIds(s.items)
    ensures UpdateQuantity(s, productId, quantity).Success? ==>
      UniqueIds(UpdateQuantity(s, productId, quantity).value.items)
  {
    match FindIndex(s.items, productId)
    case None =>
    case Some(i) =>
      if quantity <= 0 {
        RemoveIdUnique(s.items, productId);
      } else if quantity <= s.items[i].product.stock {
        SetLineUnique(s.items, i, quantity);
      }
  }

  /** Every request keeps identifiers unique. */
  lemma StepKeepsUnique(s: Store, op: Op)
    requires UniqueIds(s.items)
    ensures UniqueIds(Step(s, op).items)
  {
    match op
    case Add(p, q) => AddToCartKeepsUnique(s, p, q);
    case SetQuantity(id, q) => UpdateQuantityKeepsUnique(s, id, q);
    case Remove(id) => RemoveIdUnique(s.items, id);
    case Clear =>
  }

  /** Any sequence of requests keeps identifiers unique, with no condition on
      the requests: only an unvalidated load can bring in a duplicate id. */
  lemma {:induction false} RunKeepsUnique(s: Store, ops: seq<Op>)
    requires UniqueIds(s.items)
    ensures UniqueIds(Run(s, ops).items)
    decreases |ops|
  {
    if |ops| > 0 {
      StepKeepsUnique(s, ops[0]);
      RunKeepsUnique(Step(s, ops[0]), ops[1..]);
    }
  }

  /** Every request keeps the published snapshot and the cart slot in step
      with the list: a rejected request changes nothing and any other one
      commits. */
  lemma StepKeepsMirrored(s: Store, op: Op)
    requires Mirrored(s)
    ensures Mirrored(Step(s, op))
  {
  }

  /** Any sequence of requests keeps the published snapshot and the cart slot
      in step with the list, with no condition on the requests, as long as
      this service is the only writer of the slot. */
  lemma {:induction false} RunKeepsMirrored(s: Store, ops: seq<Op>)
    requires Mirrored(s)
    ensures Mirrored(Run(s, ops))
    decreases |ops|
  {
    if |ops| > 0 {
      StepKeepsMirrored(s, ops[0]);
      RunKeepsMirrored(Step(s, ops[0]), ops[1..]);
    }
  }

  /** Every add in the sequence asks for at least one unit. */
  predicate AddsPositive(ops: seq<Op>) {
    forall k :: 0 <= k < |ops| && ops[k].Add? ==> ops[k].quantity >= 1
  }

  /** A request that is not an add of fewer than one unit keeps every
      quantity at least one; the passed stock plays no part. */
  lemma StepKeepsPositive(s: Store, op: Op)
    requires QuantitiesPositive(s.items)
    requires op.Add? ==> op.quantity >= 1
    ensures QuantitiesPositive(Step(s, op).items)
  {
    match op
    case Add(p, q) =>
      var r := AddToCart(s, p, q);
      if r.Success? {
        match FindIndex(s.items, p.id)
        case Some(i) =>
          var t := r.value.items;
          forall k | 0 <= k < |t| ensures t[k].quantity >= 1 {
            if k != i { assert t[k] == s.items[k]; }
          }
        case None =>
          var t := r.value.items;
          forall k | 0 <= k < |t| ensures t[k].quantity >= 1 {
            if k < |s.items| { assert t[k] == s.items[k]; }
          }
      }
    case SetQuantity(id, q) =>
      if q <= 0 && HasId(s.items, id) {
        RemoveIdPositive(s.items, id);
      }
    case Remove(id) => RemoveIdPositive(s.items, id);
    case Clear =>
  }

  /** A sequence whose adds each ask for at least one unit keeps every
      quantity at least one, whatever stock the passed products report. */
  lemma {:induction false} RunKeepsPositive(s: Store, ops: seq<Op>)
    requires QuantitiesPositive(s.items)
    requires AddsPositive(ops)
    ensures QuantitiesPositive(Run(s, ops).items)
    decreases |ops|
  {
    if |ops| > 0 {
      StepKeepsPositive(s, ops[0]);
      assert AddsPositive(ops[1..]) by {
        forall k | 0 <= k < |ops[1..]| && ops[1..][k].Add? ensures ops[1..][k].quantity >= 1 {
          assert ops[1..][k] == ops[k + 1];
        }
      }
      RunKeepsPositive(Step(s, ops[0]), ops[1..]);
    }
  }

  /** Without a lower bound on the quantity, `addToCart` with quantity 0
      appends a line that wants no units. */
  lemma AddZeroQuantityAppendsEmptyLine()
    ensures var p := Product("p1", 1000, 5);
      var s := Init(false, map[]);
      AddToCart(s, p, 0) == Success(UpdateCart(s, [CartItem(p, 0)]))
      && !QuantitiesInStock(AddToCart(s, p, 0).value.items)
  {
    var p := Product("p1", 1000, 5);
    var s := Init(false, map[]);
    assert s.items == [];
    assert FindIndex(s.items, p.id) == None;
    assert s.items + [CartItem(p, 0)] == [CartItem(p, 0)];
    var t := AddToCart(s, p, 0).value;
    assert t.items[0].quantity == 0;
  }

  /** If the product passed for an id already in the cart reports more stock
      than the stored snapshot, `addToCart` checks against the larger figure.
      Starting from a reachable store that satisfies the invariant, it leaves
      a line whose quantity exceeds its own snapshot's stock. */
  lemma AddWithRaisedStockBreaksBound()
    ensures var s := AddToCart(Init(true, map[]), Product("p1", 1000, 5), 5);
      && s.Success? && Inv(s.value)
      && var t := AddToCart(s.value, Product("p1", 1000, 10), 3);
      && t.Success? && t.value.items == [CartItem(Product("p1", 1000, 5), 8)]
      && !Inv(t.value)
  {
    var s0 := Init(true, map[]);
    assert FindIndex(s0.items, "p1") == None;
    var s1 := AddToCart(s0, Product("p1", 1000, 5), 5).value;
    assert s1.items == [CartItem(Product("p1", 1000, 5), 5)];
    assert ValidItems(s1.items);
    assert FindIndex(s1.items, "p1") == Some(0);
    var s2 := AddToCart(s1, Product("p1", 1000, 10), 3).value;
    assert s2.items == [CartItem(Product("p1", 1000, 5), 8)];
    assert !QuantitiesInStock(s2.items) by {
      assert s2.items[0].quantity > s2.items[0].product.stock;
    }
  }

  /** `StockNotRaised` is sufficient, not necessary: an add whose passed
      stock is above the held snapshot's still keeps the invariant when the
      new quantity fits the held stock. */
  lemma AddWithRaisedStockMayKeepInv()
    ensures var s := AddToCart(Init(true, map[]), Product("p1", 1000, 5), 1);
      && s.Success? && Inv(s.value)
      && !StockNotRaised(s.value.items, Product("p1", 1000, 10))
      && var t := AddToCart(s.value, Product("p1", 1000, 10), 1);
      && t.Success? && t.value.items == [CartItem(Product("p1", 1000, 5), 2)]
      && Inv(t.value)
  {
    var s0 := Init(true, map[]);
    assert FindIndex(s0.items, "p1") == None;
    var s1 := AddToCart(s0, Product("p1", 1000, 5), 1).value;
    assert s1.items == [CartItem(Product("p1", 1000, 5), 1)];
    assert FindIndex(s1.items, "p1") == Some(0);
    var s2 := AddToCart(s1, Product("p1", 1000, 10), 1).value;
    assert s2.items == [CartItem(Product("p1", 1000, 5), 2)];
  }

  /** Loading does not validate: a stored line with quantity -1 is restored
      as it is, next to the valid one. */
  lemma LoadKeepsInvalidLine()
    ensures var good := CartItem(Product("p1", 1000, 5), 2);
      var bad := CartItem(Product("p2", 500, 5), -1);
      Init(true, map[CartKey := [good, bad]]).items == [good, bad]
  {
  }

  /** Adding two units of a product with stock 5 and price 10.00, twice,
      gives one line of four units and a total of 40.00. */
  lemma AddTwiceMerges()
    ensures var p := Product("p1", 1000, 5);
      var s0 := Init(true, map[]);
      var s1 := AddToCart(s0, p, 2);
      s1.Success? && AddToCart(s1.value, p, 2).Success?
      && AddToCart(s1.value, p, 2).value.items == [CartItem(p, 4)]
      && Total(AddToCart(s1.value, p, 2).value.items) == 4000
      && AddToCart(s1.value, p, 2).value.storage[CartKey] == [CartItem(p, 4)]
  {
    var p := Product("p1", 1000, 5);
    var s0 := Init(true, map[]);
    assert FindIndex(s0.items, p.id) == None;
    var s1 := AddToCart(s0, p, 2).value;
    assert s1.items == [CartItem(p, 2)];
    assert FindIndex(s1.items, p.id) == Some(0);
    var s2 := AddToCart(s1, p, 2).value;
    assert s2.items == [CartItem(p, 4)];
    SumSingle(CartItem(p, 4), Subtotal);
  }

  /** Asking `updateQuantity` for 6 units of a line whose snapshot has stock 5
      fails and reports the stock of 5. */
  lemma UpdateQuantityAboveStockFails()
    ensures var s := AddToCart(Init(true, map[]), Product("p1", 1000, 5), 2);
      s.Success? && UpdateQuantity(s.value, "p1", 6) == Failure(InsufficientStock(5))
  {
    var s0 := Init(true, map[]);
    assert FindIndex(s0.items, "p1") == None;
    var s1 := AddToCart(s0, Product("p1", 1000, 5), 2).value;
    assert FindIndex(s1.items, "p1") == Some(0);
  }
}

=== FILE: cart_service.dfy ===
/** The cart state manager of src/app/services/cart.service.ts.

    The service's mutable fields become one immutable `Store` value and each
    public method becomes a pure function from the store before the call to
    the store after it. A thrown `Error` becomes `Failure`, and the caller keeps
    the store it had. The observable `cartSubject` is modelled as the log of
    every snapshot it has carried. `localStorage` is modelled as a map from
    keys to stored cart lists, together with a count of the writes made to the
    cart's slot. */
module CartService {
  import opened Wrappers
  import opened Products
  import opened CartItems

  /** The single storage key the service reads and writes. */
  const CartKey: string := "cart"

  /** The service state. `items` is `cartItems`. `emitted` holds every value
      `cartSubject` has carried, oldest first; its last element is what a new
      subscriber receives. `storage` is the key/value store, and `saves`
      counts the service's writes to it. `browser` is the fixed outcome of
      `isPlatformBrowser`: when it is false, storage is never touched. */
  datatype Store = Store(
    items: seq<CartItem>,
    emitted: seq<seq<CartItem>>,
    storage: map<string, seq<CartItem>>,
    saves: nat,
    browser: bool)

  /** The error `addToCart` and `updateQuantity` throw. `available` is the
      figure the message reports: the product's stock, or, for a line that is
      already in the cart, how many more units may still be added. */
  datatype InsufficientStock = InsufficientStock(available: int)

  /** The snapshot a new subscriber of `getCart` receives. */
  function Published(s: Store): seq<CartItem>
    requires |s.emitted| > 0
  {
    s.emitted[|s.emitted| - 1]
  }

  /** `t` is `s` after one commit of `t.items`: exactly one snapshot equal to
      the new list has been published, and, in a browser, the list has been
      written to the cart slot with every other storage key untouched. */
  predicate Committed(s: Store, t: Store) {
    && t.browser == s.browser
    && |t.emitted| == |s.emitted| + 1
    && t.emitted[..|s.emitted|] == s.emitted
    && Published(t) == t.items
    && (if s.browser
        then CartKey in t.storage && t.storage[CartKey] == t.items
             && t.storage.Keys == s.storage.Keys + {CartKey}
             && (forall k :: k in s.storage && k != CartKey ==> t.storage[k] == s.storage[k])
             && t.saves == s.saves + 1
        else t.storage == s.storage && t.saves == s.saves)
  }

  /** The published snapshot always equals the current list, and in a
      browser the cart slot holds the current list, or is absent while the
      cart is still empty because nothing was ever saved. */
  predicate Mirrored(s: Store) {
    && |s.emitted| > 0
    && Published(s) == s.items
    && (s.browser ==>
          (CartKey in s.storage && s.storage[CartKey] == s.items)
          || (CartKey !in s.storage && s.items == []))
  }

  /** `saveCartToStorage`: in a browser, write the current list to the cart
      slot; elsewhere, do nothing. */
  function SaveCartToStorage(s: Store): (t: Store)
    ensures t.items == s.items && t.emitted == s.emitted && t.browser == s.browser
    ensures s.browser ==> CartKey in t.storage && t.storage[CartKey] == s.items
    ensures s.browser ==> t.storage.Keys == s.storage.Keys + {CartKey} && t.saves == s.saves + 1
    ensures forall k :: k in s.storage && k != CartKey ==> k in t.storage && t.storage[k] == s.storage[k]
    ensures !s.browser ==> t == s
  {
    if s.browser then s.(storage := s.storage[CartKey := s.items], saves := s.saves + 1)
    else s
  }

  /** `updateCart`: install `items` as the cart, publish a copy of it and
      persist it. Every successful mutation ends here. */
  function UpdateCart(s: Store, items: seq<CartItem>): (t: Store)
    ensures t.items == items
    ensures Committed(s, t)
    ensures Mirrored(t)
  {
    var published := s.(items := items, emitted := s.emitted + [items]);
    assert published.emitted[..|s.emitted|] == s.emitted;
    SaveCartToStorage(published)
  }

  /** `loadCartFromStorage`: in a browser, a present cart slot replaces the
      list verbatim and is published; the stored lines are not checked
      against any invariant. Otherwise nothing changes. */
  function LoadCartFromStorage(s: Store): (t: Store)
    ensures t.storage == s.storage && t.saves == s.saves && t.browser == s.browser
    ensures s.browser && CartKey in s.storage ==>
      t.items == s.storage[CartKey] && t.emitted == s.emitted + [t.items]
    ensures !(s.browser && CartKey in s.storage) ==> t == s
  {
    if s.browser && CartKey in s.storage then
      var items := s.storage[CartKey];
      s.(items := items, emitted := s.emitted + [items])
    else s
  }

  /** The constructor: an empty cart whose subject starts with the empty
      list, then one load from storage. The store it builds is mirrored
      whatever the storage holds. */
  function Init(browser: bool, storage: map<string, seq<CartItem>>): (s: Store)
    ensures s.browser == browser && s.storage == storage && s.saves == 0
    ensures browser && CartKey in storage ==> s.items == storage[CartKey] && s.emitted == [[], s.items]
    ensures !(browser && CartKey in storage) ==> s.items == [] && s.emitted == [[]]
    ensures Mirrored(s)
  {
    LoadCartFromStorage(Store([], [[]], storage, 0, browser))
  }

  /** `addToCart(product, quantity)`. The request is checked against the
      stock of the product passed in, both for a new line and for an existing
      one. An existing line (the first with that id) only has its quantity
      raised; its stored product snapshot is kept. A new line is appended. */
  function AddToCart(s: Store, product: Product, quantity: int): (r: Result<Store, InsufficientStock>)
    ensures product.stock < quantity ==> r == Failure(InsufficientStock(product.stock))
    ensures product.stock >= quantity && !HasId(s.items, product.id) ==>
      r.Success? && r.value.items == s.items + [CartItem(product, quantity)] && Committed(s, r.value)
    ensures product.stock >= quantity && HasId(s.items, product.id) ==>
      var i := FindIndex(s.items, product.id).value;
      var oldLine := s.items[i];
      && (r.Failure? <==> oldLine.quantity + quantity > product.stock)
      && (r.Failure? ==> r.error == InsufficientStock(product.stock - oldLine.quantity))
      && (r.Success? ==>
            && |r.value.items| == |s.items|
            && r.value.items[i] == CartItem(oldLine.product, oldLine.quantity + quantity)
            && (forall j :: 0 <= j < |s.items| && j != i ==> r.value.items[j] == s.items[j])
            && Committed(s, r.value))
  {
    if product.stock < quantity then Failure(InsufficientStock(product.stock))
    else match FindIndex(s.items, product.id)
      case Some(i) =>
        var line := s.items[i];
        var newQuantity := line.quantity + quantity;
        if newQuantity > product.stock then
          Failure(InsufficientStock(product.stock - line.quantity))
        else
          Success(UpdateCart(s, s.items[i := line.(quantity := newQuantity)]))
      case None =>
        Success(UpdateCart(s, s.items + [CartItem(product, quantity)]))
  }

  /** `updateQuantity(productId, quantity)`. An absent id changes nothing at
      all: no publish, no storage write. For the first line with that id, a
      quantity of zero or less removes it exactly as `removeFromCart` does; a
      quantity above the stock held in the line's own snapshot fails; any
      other quantity replaces the line's quantity. */
  function UpdateQuantity(s: Store, productId: string, quantity: int): (r: Result<Store, InsufficientStock>)
    ensures !HasId(s.items, productId) ==> r == Success(s)
    ensures HasId(s.items, productId) ==>
      var i := FindIndex(s.items, productId).value;
      var line := s.items[i];
      && (quantity <= 0 ==> r.Success? && r.value == RemoveFromCart(s, productId))
      && (quantity > 0 && quantity > line.product.stock ==>
            r == Failure(InsufficientStock(line.product.stock)))
      && (0 < quantity <= line.product.stock ==>
            && r.Success?
            && |r.value.items| == |s.items|
            && r.value.items[i] == CartItem(line.product, quantity)
            && (forall j :: 0 <= j < |s.items| && j != i ==> r.value.items[j] == s.items[j])
            && Committed(s, r.value))
  {
    match FindIndex(s.items, productId)
      case None => Success(s)
      case Some(i) =>
        var line := s.items[i];
        if quantity <= 0 then Success(RemoveFromCart(s, productId))
        else if quantity > line.product.stock then Failure(InsufficientStock(line.product.stock))
        else Success(UpdateCart(s, s.items[i := line.(quantity := quantity)]))
  }

  /** `removeFromCart(productId)`: drop every line with that id, keep the
      others in order, and commit, even when nothing was dropped. */
  function RemoveFromCart(s: Store, productId: string): (t: Store)
    ensures !HasId(t.items, productId)
    ensures forall x :: x in t.items <==> x in s.items && x.product.id != productId
    ensures Committed(s, t)
  {
    UpdateCart(s, RemoveId(s.items, productId))
  }

  /** `clearCart`: empty the cart and commit. */
  function ClearCart(s: Store): (t: Store)
    ensures t.items == []
    ensures Committed(s, t)
  {
    UpdateCart(s, [])
  }

  /** `getTotal`: a reduce over the current lines, accumulating price times
      quantity from the first line to the last. */
  method GetTotal(s: Store) returns (total: int)
    ensures total == Total(s.items)
    ensures (forall k :: 0 <= k < |s.items| ==> s.items[k].quantity >= 0) ==> total >= 0
  {
    total := 0;
    var i := 0;
    while i < |s.items|
      invariant 0 <= i <= |s.items|
      invariant total == Total(s.items[..i])
    {
      assert s.items[..i + 1][..i] == s.items[..i];
      total := total + s.items[i].product.price * s.items[i].quantity;
      i := i + 1;
    }
    assert s.items[..i] == s.items;
    if forall k :: 0 <= k < |s.items| ==> s.items[k].quantity >= 0 {
      FoldBounds(s.items);
    }
  }

  /** `getItemCount`: a reduce over the current lines, accumulating the
      quantities from the first line to the last. */
  method GetItemCount(s: Store) returns (count: int)
    ensures count == ItemCount(s.items)
    ensures (forall k :: 0 <= k < |s.items| ==> s.items[k].quantity >= 1) ==> count >= |s.items|
  {
    count := 0;
    var i := 0;
    while i < |s.items|
      invariant 0 <= i <= |s.items|
      invariant count == ItemCount(s.items[..i])
    {
      assert s.items[..i + 1][..i] == s.items[..i];
      count := count + s.items[i].quantity;
      i := i + 1;
    }
    assert s.items[..i] == s.items;
    if forall k :: 0 <= k < |s.items| ==> s.items[k].quantity >= 1 {
      FoldBounds(s.items);
    }
  }
}

=== FILE: products.dfy ===
/** The product and cart-line records shared by the catalog and the cart
    (src/app/models/product.interface.ts). */
module Products {

  /** A catalog product as the cart uses it. The identifier is the product's
      `_id`; the price is held in integer cents rather than as a floating-point
      number; `stock` is the available count known when the record was fetched.
      Display fields (name, description, image, flags, timestamps) play no
      part in the cart's logic and are not carried. */
  datatype Product = Product(id: string, price: nat, stock: int)

  /** One line of the cart: a product snapshot and the quantity wanted. */
  datatype CartItem = CartItem(product: Product, quantity: int)

  /** The line's contribution to the cart total: unit price times quantity. */
  function Subtotal(item: CartItem): int {
    item.product.price * item.quantity
  }

  /** The line's contribution to the item count. */
  function Quantity(item: CartItem): int {
    item.quantity
  }
}

=== FILE: wrappers.dfy ===
/** Option and Result types used across the cart model. */
module Wrappers {

  /** A value that may be absent. */
  datatype Option<+T> = None | Some(value: T)

  /** The outcome of an operation that either succeeds with a value or
      fails with an error, like a TypeScript method that returns or throws. */
  datatype Result<+R, +E> = Success(value: R) | Failure(error: E)
}
